=== FILE: README.md ===
# Slack and Segment notifier plugins — a Dafny model

This project models the decision logic of two error-tracking integration
plugins:

- **Slack notifier** (`SlackMessage`, `SlackRouting`): the attachment
  colour for an event level, the comma-separated tag-key options, the
  ordered attachment fields (Culprit, Project, Triggered By, tags), the
  optional top-level payload keys (`username`, `channel`, `icon_url`), and
  the delivery decision — no post without a webhook, one post when not
  sorting on a tag, otherwise an optional root post followed by one post
  per routing group whose raw comma-split values contain the event's
  routing-tag value.
- **Segment forwarder** (`SegmentForward`): the guard chain of
  `post_process` (identified user, write key, rate limiter) and the fixed
  tracking request it sends.

The Python string operations the plugins depend on (`str.split(',')`,
`str.strip()`, `str.strip(' ')`, `str.lower()`, `', '.join`, and
`option or default`) are written out in `PyText`, with `Split`/`Join`
proved to be mutual inverses. Every HTTP POST becomes a record in the
returned sequence; the rate limiter and the MD5 digest are function
parameters, and the Segment outcome records which limiter queries were
made.

Files: `wrappers.dfy` (Option), `pytext.dfy`, `slack_message.dfy`,
`slack_routing.dfy`, `segment.dfy`.

Behaviour of the code worth noting:

- when the routing value matches no group, nothing but the optional root
  post is sent — there is no fallback to the default channel;
- an unset `sort_on_tag_key` means the key `application_name`, not "no
  routing";
- a matching group whose channel option is unset still gets a post (with
  an empty channel);
- `username` is an option defaulting to `Sentry`, not a constant.

## Model

| member | source | states |
|---|---|---|
| `PyText.OrElse` | src/sentry_plugins/slack/plugin.py:192-194 | `option or default`: the option's value when it is set and non-empty, the default when it is unset or empty |
| `PyText.Split` | src/sentry_plugins/slack/plugin.py:289-294 | `str.split(',')` never returns an empty list, so the `or []` after each group split never applies |
| `PyText.JoinSplit` | src/sentry_plugins/slack/plugin.py:289 | joining the pieces of a split with the separator gives back the original option string |
| `PyText.SplitJoin` | src/sentry_plugins/slack/plugin.py:289 | splitting a join of comma-free pieces gives back exactly those pieces |
| `PyText.SplitLength` | src/sentry_plugins/slack/plugin.py:181 | a split has one more piece than the string has separators |
| `PyText.JoinWithAppend` | src/sentry_plugins/slack/plugin.py:238 | joining two non-empty lists is joining each and gluing the two results with one more separator |
| `PyText.StripCharsSpec` | src/sentry_plugins/slack/plugin.py:192-194 | stripping keeps a contiguous middle part, removes only stripped characters and leaves none at either end |
| `PyText.StripCharsIdempotent` | src/sentry_plugins/slack/plugin.py:270 | stripping twice is stripping once |
| `PyText.LowerSpec` | src/sentry_plugins/slack/plugin.py:246 | lower-casing maps each character independently and leaves no upper-case letter |
| `PyText.LowerIdempotent` | src/sentry_plugins/slack/plugin.py:181 | lower-casing twice is lower-casing once |
| `SlackMessage.ColorForEvent` | src/sentry_plugins/slack/plugin.py:149-150 | a known level gives `#` plus its table colour; an absent or unknown level gives the literal `#error` |
| `SlackMessage.ColorShape` | src/sentry_plugins/slack/plugin.py:15-21 | the colour starts with `#`, and it is `#` plus six hex digits exactly when the level is one of the five known levels, so `#error` is never the error hex |
| `SlackMessage.GetTagList` | src/sentry_plugins/slack/plugin.py:177-181 | the tag list is `None` exactly when the option is unset or empty; otherwise it holds every comma piece of the option, stripped and lower-cased, and nothing else |
| `SlackMessage.TagListOfPieces` | src/sentry_plugins/slack/plugin.py:177-181 | for any comma-free pieces joined by commas, the tag list is exactly the set of those pieces stripped and lower-cased |
| `SlackMessage.TagListNormalised` | src/sentry_plugins/slack/plugin.py:181 | every key of a tag list is stripped, lower-case and comma-free |
| `SlackMessage.TagFields` | src/sentry_plugins/slack/plugin.py:242-256 | a tag yields a short field exactly when the included set is empty or names its lower-cased or standardised key, and the excluded set is empty or names neither |
| `SlackMessage.TagFieldsInOrder` | src/sentry_plugins/slack/plugin.py:245-256 | tag fields follow the tag order: filtering a concatenation concatenates the filtered parts |
| `SlackMessage.TagFieldSingle` | src/sentry_plugins/slack/plugin.py:248-256 | one tag gives one field when it passes the include/exclude filter and none otherwise |
| `SlackMessage.Fields` | src/sentry_plugins/slack/plugin.py:207-256 | Culprit (not short) first when present and different from the title, then Project (short), then Triggered By (not short) when rules are included and present, then the tag fields only when tags are included |
| `SlackMessage.FixedFields` | src/sentry_plugins/slack/plugin.py:209-240 | among the fixed fields a Culprit appears iff there is a distinct culprit, a Triggered By iff rules are included and present, and Project appears once, right after Culprit |
| `SlackMessage.TriggeredBy` | src/sentry_plugins/slack/plugin.py:225-240 | the Triggered By value is empty exactly when there are no rules |
| `SlackMessage.TriggeredBySingle` | src/sentry_plugins/slack/plugin.py:233-238 | one rule is shown as `<link \| label>` |
| `SlackMessage.TriggeredByAppend` | src/sentry_plugins/slack/plugin.py:235-238 | the rule mentions keep the rule order and are separated by `, ` |
| `SlackMessage.OptionalKey` | src/sentry_plugins/slack/plugin.py:272-279 | a top-level key is sent exactly when its value is non-empty, and then carries that value |
| `SlackMessage.UsernameKey` | src/sentry_plugins/slack/plugin.py:192 | the username is `Sentry` when unset, is omitted only when the option strips to empty, and is otherwise the stripped option |
| `SlackMessage.ChannelKey` | src/sentry_plugins/slack/plugin.py:194 | the channel key is omitted exactly when the option is unset or strips to empty, and is otherwise the stripped option |
| `SlackMessage.BuildPayload` | src/sentry_plugins/slack/plugin.py:258-279 | `parse` is `none`, there is one attachment with fallback `[project] title`, the notification's title and link, the level colour and the ordered fields, and `icon_url` is present exactly when its option is non-empty |
| `SlackRouting.SortKey` | src/sentry_plugins/slack/plugin.py:287 | the routing key is the stripped option when it is non-empty, `application_name` when unset or empty |
| `SlackRouting.ParseGroup` | src/sentry_plugins/slack/plugin.py:288-294 | a group's values are the raw comma pieces of its option (`[""]` when unset), joining back to the option, and its channel is the stripped channel option (empty when unset) |
| `SlackRouting.FirstTagValue` | src/sentry_plugins/slack/plugin.py:296-302 | the routing value is the value of the first tag with the routing key, and is absent exactly when no tag has that key |
| `SlackRouting.MatchingChannelsSpec` | src/sentry_plugins/slack/plugin.py:304-307 | every matching group's channel is selected, every selected channel belongs to a matching group, and none is selected exactly when no group matches |
| `SlackRouting.MatchingChannelsInGroupOrder` | src/sentry_plugins/slack/plugin.py:288-308 | the selected channels are those of groups 1, 2 and 3 that match, in that order, without deduplication |
| `SlackRouting.Plan` | src/sentry_plugins/slack/plugin.py:283-310 | no post without a webhook, exactly one root post when not sorting, at most four posts, and a root post only first and only when asked for |
| `SlackRouting.SortedPlan` | src/sentry_plugins/slack/plugin.py:283-308 | when sorting, the root post (if asked for) comes first and the group posts name exactly the selected channels in order |
| `SlackRouting.MissingTagOnlyRoot` | src/sentry_plugins/slack/plugin.py:296-302 | an event without the routing tag gets only the optional root post |
| `SlackRouting.NoMatchNoFallback` | src/sentry_plugins/slack/plugin.py:304-308 | a routing value matching no group gets only the optional root post, with no fallback post |
| `SlackRouting.MatchingGroupIsRouted` | src/sentry_plugins/slack/plugin.py:304-307 | every matching group gets a post, even one whose channel is empty |
| `SlackRouting.EmptyValueMatchesUnsetGroups` | src/sentry_plugins/slack/plugin.py:289-307 | an unset group's values are `[""]`, so when the routing tag has the empty value the unset group is routed to |
| `SlackRouting.GroupValuesAreRaw` | src/sentry_plugins/slack/plugin.py:305 | group values are compared unstripped: the option `a, b` holds ` b`, which `b` does not match |
| `SlackRouting.Body` | src/sentry_plugins/slack/plugin.py:306 | a group post's body is the base payload with only the channel changed (to the group's channel, even an empty one); the root post's body is the base payload |
| `SlackRouting.Deliveries` | src/sentry_plugins/slack/plugin.py:283-310 | one post per route, all to the space-stripped webhook with the same attachment; a group post is the base payload with only its channel set to the group's channel, and the root post is the base payload |
| `SlackRouting.GroupPostsCarrySelectedChannels` | src/sentry_plugins/slack/plugin.py:304-307 | after the optional root post, post k carries the k-th selected channel |
| `SlackRouting.PostCounts` | src/sentry_plugins/slack/plugin.py:30-31 | zero posts with an empty webhook, exactly one (the base payload) when not sorting, never more than four |
| `SlackRouting.DeliveriesAsWritten` | src/sentry_plugins/slack/plugin.py:281-307 | as coded, every post carries the message serialised before any group channel is set |
| `SlackRouting.AsWrittenDropsGroupChannel` | tests/slack/test_plugin.py:119-122 | in the sorting test the coded second post has no channel while the tested one carries `#test_channel2` |
| `SlackRouting.SortingScenarioPlan` | tests/slack/test_plugin.py:70-89 | tag `b` against groups `a,b,c` / `d,e,f` / `b` routes to `#test_channel` then `#test_channel2` |
| `SlackRouting.SortingScenarioDeliveries` | tests/slack/test_plugin.py:91-145 | exactly two posts, each equal as a whole to the expected payload: `parse` `none`, username `Sentry`, no icon, channel `#test_channel` then `#test_channel2`, and one attachment with fallback `[foo Bar] Hello world`, title `Hello world`, the issue link, colour `#error` and the Culprit and Project fields |
| `SlackRouting.PlainFields` | src/sentry_plugins/slack/plugin.py:207-222 | without rules or tags, a distinct culprit gives exactly the Culprit and Project fields |
| `SlackRouting.SimpleScenarioDeliveries` | tests/slack/test_plugin.py:28-43 | the simple notification makes one post to the webhook with the base payload |
| `SlackRouting.SimpleScenarioPayload` | tests/slack/test_plugin.py:44-67 | that payload has no channel or icon, username `Sentry`, colour `#f18500`, fallback `[foo Bar] Hello world` and just the two fixed fields: the rule `my rule` is not shown because `include_rules` is unset |
| `SegmentForward.UserId` | src/sentry_plugins/segment/plugin.py:31-38 | a user id is found only when the user interface is present and has a non-empty `id` |
| `SegmentForward.LimiterKey` | src/sentry_plugins/segment/plugin.py:44 | the limiter key is `segment:` followed by the digest of the write key |
| `SegmentForward.TrackRequest` | src/sentry_plugins/segment/plugin.py:49-62 | the request goes to the fixed endpoint with auth (write key, empty), user id, event `Error Captured`, the event id, the timestamp plus `Z`, and integration `sentry` with the plugin version |
| `SegmentForward.PostProcess` | src/sentry_plugins/segment/plugin.py:27-62 | the limiter is asked once, for 50 per 1-second window, exactly when there is a user id and a write key; one request is sent exactly when it was asked and did not limit |
| `SegmentForward.GuardsPrecedeLimiter` | src/sentry_plugins/segment/plugin.py:31-42 | an anonymous event or a missing write key gives an empty outcome, whatever the limiter and digest |
| `SegmentForward.AtMostOneRequest` | src/sentry_plugins/segment/plugin.py:61-62 | at most one request is sent, always to the fixed endpoint with the write key as basic-auth user and an empty password |
| `SegmentForward.ForwardedPayload` | src/sentry_plugins/segment/plugin.py:44-62 | an identified user with a write key under an unlimited key gets exactly one query and the one documented request |

## Left out

- HTTP sending (`safe_urlopen`, the session's `post`) is not modelled; each POST is a record in the returned sequence, and HTTP failures are not represented.
- The tag label lookups of `_get_tags` (database queries) are not modelled: the labelled `(key, value)` list is an input, and `TagKey.get_standardized_key` is a function parameter `std`.
- URL building (`reverse`, `absolute_uri`, `get_absolute_url`) and `project.get_full_name()` are not modelled: their results are opaque strings in `Notification` and `RuleRef`.
- `md5_text` and the rate-limiter service are not modelled: they are function parameters; the limiter's shared counter state is external.
- JSON, form encoding and the UTF-8 `.encode` calls are not modelled: payloads are datatypes, and strings are compared as code points.
- `get_config` option descriptors and plugin registration are configuration metadata with no decision logic.
- `event.datetime.isoformat()` is an opaque string input; the model only appends `Z`.
- `SegmentForward.UserId`: user ids are modelled as strings, so a falsy non-string id (such as the integer 0) is not represented.
- `PyText.IsSpace`: options are taken as unicode text, whose `strip()` removes Python 2's Unicode whitespace; a byte-string option, whose `strip()` removes only the six ASCII whitespace characters, is not represented.
- `PyText.Lower`: only ASCII letters are lower-cased; Python's full Unicode case mapping is not modelled.
- Options are either unset or strings, and flags are booleans; a string option holding a non-string value is not represented.

## Findings

| source | as written | input that shows it | evidently intended | confidence | as-written member | corrected member |
|---|---|---|---|---|---|---|
| src/sentry_plugins/slack/plugin.py:281 | the form body is serialised at line 281, before line 306 sets the group channel, so every group post repeats the root message without that channel | the sorting test's options: tag `test_tag_key=b`, groups `a,b,c`→`#test_channel`, `d,e,f`, `b`→`#test_channel2`; both posts carry no `channel` key | each group post carries its group's channel, as tests/slack/test_plugin.py:94 and 122 expect | not executed | `SlackRouting.DeliveriesAsWritten` (shown by `SlackRouting.AsWrittenDropsGroupChannel`) | `SlackRouting.Deliveries` (proved by `SlackRouting.GroupPostsCarrySelectedChannels`) |

=== FILE: pytext.dfy ===
/** The few Python 2 string operations the plugins rely on, on unicode
    text: `str.split(sep)` with an explicit separator, `str.strip()`,
    `str.strip(chars)`, `str.lower()`, `sep.join(parts)` and the
    truthiness idiom `option or default`. */
module PyText {
  import opened Wrappers

  /** `option or default` for an option that is `None` or a string:
      both `None` and the empty string are falsy. */
  predicate Truthy(o: Option<string>) {
    o.Some? && o.value != ""
  }

  function OrElse(o: Option<string>, default: string): (r: string)
    ensures Truthy(o) ==> r == o.value
    ensures !Truthy(o) ==> r == default
  {
    if Truthy(o) then o.value else default
  }

  // ---------------------------------------------------------------------------
  // split / join

  /** `s.split(sep)` for a one-character separator. Never empty:
      `"".split(",")` is `[""]`, and `"a,,b".split(",")` is
      `["a", "", "b"]`. */
  function Split(s: string, sep: char): (r: seq<string>)
    ensures |r| >= 1
    ensures forall i :: 0 <= i < |r| ==> sep !in r[i]
  {
    if |s| == 0 then [""]
    else
      var rest := Split(s[1..], sep);
      if s[0] == sep then [""] + rest
      else [[s[0]] + rest[0]] + rest[1..]
  }

  /** `sep.join(parts)` for a one-character separator. */
  function Join(parts: seq<string>, sep: char): string
  {
    JoinWith(parts, [sep])
  }

  /** `sep.join(parts)` for a string separator. */
  function JoinWith(parts: seq<string>, sep: string): string
  {
    if |parts| == 0 then ""
    else if |parts| == 1 then parts[0]
    else parts[0] + sep + JoinWith(parts[1..], sep)
  }

  /** Joining two non-empty lists is joining each and gluing the results
      with one more separator. */
  lemma {:induction false} JoinWithAppend(a: seq<string>, b: seq<string>, sep: string)
    requires |a| > 0 && |b| > 0
    ensures JoinWith(a + b, sep) == JoinWith(a, sep) + sep + JoinWith(b, sep)
  {
    if |a| > 1 {
      assert (a + b)[1..] == a[1..] + b;
      JoinWithAppend(a[1..], b, sep);
    } else {
      assert (a + b)[1..] == b;
    }
  }

  /** Joining what was split gives back the original string. */
  lemma {:induction false} JoinSplit(s: string, sep: char)
    ensures Join(Split(s, sep), sep) == s
  {
    if |s| > 0 {
      var rest := Split(s[1..], sep);
      JoinSplit(s[1..], sep);
      if s[0] == sep {
        assert Split(s, sep) == [""] + rest;
        assert ([""] + rest)[1..] == rest;
      } else {
        var r := Split(s, sep);
        assert r == [[s[0]] + rest[0]] + rest[1..];
        if |rest| == 1 {
          assert Join(r, sep) == [s[0]] + rest[0];
        } else {
          assert r[1..] == rest[1..];
          assert Join(rest, sep) == rest[0] + [sep] + Join(rest[1..], sep);
          assert Join(r, sep) == [s[0]] + rest[0] + [sep] + Join(rest[1..], sep);
        }
        assert [s[0]] + s[1..] == s;
      }
    }
  }

  /** Splitting a separator-free first piece glued onto a rest string. */
  lemma {:induction false} SplitPrefix(a: string, b: string, sep: char)
    requires sep !in a
    ensures Split(a + b, sep) == [a + Split(b, sep)[0]] + Split(b, sep)[1..]
    decreases |a|
  {
    var r := Split(b, sep);
    if |a| > 0 {
      var rest := Split(a[1..] + b, sep);
      assert Split(a + b, sep) == [[a[0]] + rest[0]] + rest[1..] by {
        assert (a + b)[0] == a[0] && a[0] != sep;
        assert (a + b)[1..] == a[1..] + b;
      }
      assert rest[0] == a[1..] + r[0] && rest[1..] == r[1..] by {
        SplitPrefix(a[1..], b, sep);
      }
      assert [a[0]] + (a[1..] + r[0]) == a + r[0];
    } else {
      assert a + b == b;
      assert a + r[0] == r[0];
      assert r == [r[0]] + r[1..];
    }
  }

  /** Splitting a join of separator-free pieces gives back the pieces. */
  lemma {:induction false} SplitJoin(parts: seq<string>, sep: char)
    requires |parts| >= 1
    requires forall i :: 0 <= i < |parts| ==> sep !in parts[i]
    ensures Split(Join(parts, sep), sep) == parts
  {
    if |parts| == 1 {
      SplitPrefix(parts[0], "", sep);
      assert parts[0] + "" == parts[0];
    } else {
      var tail := Join(parts[1..], sep);
      SplitJoin(parts[1..], sep);
      assert Join(parts, sep) == parts[0] + ([sep] + tail);
      SplitPrefix(parts[0], [sep] + tail, sep);
      assert ([sep] + tail)[1..] == tail;
      assert Split([sep] + tail, sep) == [""] + parts[1..];
      assert parts[0] + "" == parts[0];
      assert parts == [parts[0]] + parts[1..];
    }
  }

  /** The number of pieces is one more than the number of separators. */
  function Count(s: string, c: char): nat
  {
    if |s| == 0 then 0 else (if s[0] == c then 1 else 0) + Count(s[1..], c)
  }

  lemma {:induction false} SplitLength(s: string, sep: char)
    ensures |Split(s, sep)| == Count(s, sep) + 1
  {
    if |s| > 0 {
      SplitLength(s[1..], sep);
    }
  }

  // ---------------------------------------------------------------------------
  // strip

  /** The characters for which Python 2's `unicode.isspace()` holds
      (Unicode 5.2, where U+180E is still a space separator), which is
      what `strip()` with no argument removes. */
  predicate IsSpace(c: char) {
    || c == ' '
    || '\t' <= c <= '\r'
    || '\U{001C}' <= c <= '\U{001F}'
    || c == '\U{0085}' || c == '\U{00A0}' || c == '\U{1680}' || c == '\U{180E}'
    || '\U{2000}' <= c <= '\U{200A}'
    || c == '\U{2028}' || c == '\U{2029}' || c == '\U{202F}'
    || c == '\U{205F}' || c == '\U{3000}'
  }

  /** `s.lstrip(chars)`. */
  function LStrip(s: string, cs: char -> bool): (r: string)
    ensures |r| <= |s|
  {
    if |s| > 0 && cs(s[0]) then LStrip(s[1..], cs) else s
  }

  /** `lstrip` keeps the longest suffix whose first character is not
      stripped: everything it drops is a stripped character. */
  lemma {:induction false} LStripSpec(s: string, cs: char -> bool)
    ensures var r := LStrip(s, cs);
      && r == s[|s| - |r|..]
      && (r == [] || !cs(r[0]))
      && forall k :: 0 <= k < |s| - |r| ==> cs(s[k])
  {
    if |s| > 0 && cs(s[0]) {
      var r := LStrip(s[1..], cs);
      LStripSpec(s[1..], cs);
      forall k | 1 <= k < |s| - |r| ensures cs(s[k]) {
        assert s[k] == s[1..][k - 1];
      }
      assert s[1..][|s| - 1 - |r|..] == s[|s| - |r|..];
    }
  }

  /** `s.rstrip(chars)`. */
  function RStrip(s: string, cs: char -> bool): (r: string)
    ensures |r| <= |s|
  {
    if |s| > 0 && cs(s[|s| - 1]) then RStrip(s[..|s| - 1], cs) else s
  }

  /** `rstrip` keeps the longest prefix whose last character is not
      stripped: everything it drops is a stripped character. */
  lemma {:induction false} RStripSpec(s: string, cs: char -> bool)
    ensures var r := RStrip(s, cs);
      && r == s[..|r|]
      && (r == [] || !cs(r[|r| - 1]))
      && forall k :: |r| <= k < |s| ==> cs(s[k])
  {
    if |s| > 0 && cs(s[|s| - 1]) {
      var r := RStrip(s[..|s| - 1], cs);
      RStripSpec(s[..|s| - 1], cs);
      forall k | |r| <= k < |s| - 1 ensures cs(s[k]) {
        assert s[k] == s[..|s| - 1][k];
      }
      assert s[..|s| - 1][..|r|] == s[..|r|];
    }
  }

  /** `s.strip(chars)`. */
  function StripChars(s: string, cs: char -> bool): (r: string)
  {
    RStrip(LStrip(s, cs), cs)
  }

  /** `s.strip()`. */
  function Strip(s: string): string
  {
    StripChars(s, IsSpace)
  }

  /** A string with no stripped character at either end. */
  predicate Trimmed(s: string, cs: char -> bool) {
    s == [] || (!cs(s[0]) && !cs(s[|s| - 1]))
  }

  /** Stripping keeps a contiguous middle part of the string, removes only
      characters of `cs`, and leaves none at either end. */
  lemma StripCharsSpec(s: string, cs: char -> bool)
    ensures Trimmed(StripChars(s, cs), cs)
    ensures exists i, j ::
              && 0 <= i <= j <= |s|
              && StripChars(s, cs) == s[i..j]
              && (forall k :: 0 <= k < i ==> cs(s[k]))
              && (forall k :: j <= k < |s| ==> cs(s[k]))
  {
    var i := |s| - |LStrip(s, cs)|;
    var j := i + |StripChars(s, cs)|;
    StripCharsTrimmed(s, cs);
    StripCharsSlice(s, cs);
    assert && 0 <= i <= j <= |s|
           && StripChars(s, cs) == s[i..j]
           && (forall k :: 0 <= k < i ==> cs(s[k]))
           && (forall k :: j <= k < |s| ==> cs(s[k]));
  }

  /** Neither end of a stripped string is a stripped character. */
  lemma StripCharsTrimmed(s: string, cs: char -> bool)
    ensures Trimmed(StripChars(s, cs), cs)
  {
    var l := LStrip(s, cs);
    var r := RStrip(l, cs);
    assert l == [] || !cs(l[0]) by {
      LStripSpec(s, cs);
    }
    assert r == l[..|r|] && (r == [] || !cs(r[|r| - 1])) by {
      RStripSpec(l, cs);
    }
    if r != [] {
      assert r[0] == l[0];
    }
  }

  /** Stripping keeps the slice between the characters `lstrip` dropped
      and those `rstrip` dropped. */
  lemma StripCharsSlice(s: string, cs: char -> bool)
    ensures var i := |s| - |LStrip(s, cs)|;
      var j := i + |StripChars(s, cs)|;
      && 0 <= i <= j <= |s|
      && StripChars(s, cs) == s[i..j]
      && (forall k :: 0 <= k < i ==> cs(s[k]))
      && (forall k :: j <= k < |s| ==> cs(s[k]))
  {
    var l := LStrip(s, cs);
    var r := RStrip(l, cs);
    var i := |s| - |l|;
    var j := i + |r|;
    assert l == s[i..] && forall k :: 0 <= k < i ==> cs(s[k]) by {
      LStripSpec(s, cs);
    }
    assert r == l[..|r|] && forall k :: |r| <= k < |l| ==> cs(l[k]) by {
      RStripSpec(l, cs);
    }
    assert r == s[i..j];
    forall k | j <= k < |s| ensures cs(s[k]) {
      assert s[k] == l[k - i];
    }
  }

  /** Stripping is idempotent. */
  lemma StripCharsIdempotent(s: string, cs: char -> bool)
    ensures StripChars(StripChars(s, cs), cs) == StripChars(s, cs)
  {
    var t := StripChars(s, cs);
    StripCharsSpec(s, cs);
    TrimmedIsFixed(t, cs);
  }

  /** A trimmed string is left unchanged by stripping. */
  lemma TrimmedIsFixed(s: string, cs: char -> bool)
    requires Trimmed(s, cs)
    ensures StripChars(s, cs) == s
  {
  }

  // ---------------------------------------------------------------------------
  // lower

  predicate IsUpper(c: char) {
    'A' <= c <= 'Z'
  }

  function LowerChar(c: char): (d: char)
    ensures !IsUpper(d)
    ensures IsUpper(c) ==> d != c
    ensures !IsUpper(c) ==> d == c
  {
    if IsUpper(c) then (c as int - 'A' as int + 'a' as int) as char else c
  }

  /** `s.lower()` on the ASCII letters. */
  function Lower(s: string): (r: string)
    ensures |r| == |s|
  {
    if |s| == 0 then "" else [LowerChar(s[0])] + Lower(s[1..])
  }

  /** Lower-casing works character by character, so its result holds no
      upper-case letter. */
  lemma {:induction false} LowerSpec(s: string)
    ensures forall i :: 0 <= i < |s| ==> Lower(s)[i] == LowerChar(s[i])
    ensures forall i :: 0 <= i < |s| ==> !IsUpper(Lower(s)[i])
  {
    if |s| > 0 {
      LowerSpec(s[1..]);
      forall i | 1 <= i < |s| ensures Lower(s)[i] == LowerChar(s[i]) {
        assert Lower(s)[i] == Lower(s[1..])[i - 1];
        assert s[i] == s[1..][i - 1];
      }
    }
  }

  /** Lower-casing is idempotent. */
  lemma LowerIdempotent(s: string)
    ensures Lower(Lower(s)) == Lower(s)
  {
    LowerSpec(s);
    LowerSpec(Lower(s));
  }

  /** Lower-casing maps characters outside `cs` to characters outside `cs`
      when `cs` holds no letters; so a trimmed string stays trimmed. */
  lemma LowerKeepsTrimmed(s: string)
    requires Trimmed(s, IsSpace)
    ensures Trimmed(Lower(s), IsSpace)
  {
    LowerSpec(s);
    if s != [] {
      LowerCharKeepsNonSpace(s[0]);
      LowerCharKeepsNonSpace(s[|s| - 1]);
    }
  }

  /** No whitespace character is an upper- or lower-case ASCII letter. */
  lemma LowerCharKeepsNonSpace(c: char)
    requires !IsSpace(c)
    ensures !IsSpace(LowerChar(c))
  {
    if IsUpper(c) {
      assert 'a' <= LowerChar(c) <= 'z';
    }
  }
}

=== FILE: segment.dfy ===
/** The Segment forwarder's `post_process`: three silent guards (an
    identified user, a write key, the rate limiter) and then one tracking
    request with a fixed shape. The MD5 digest and the rate limiter are
    parameters; the outcome records which limiter queries were made and
    which requests were sent, in order. */
module SegmentForward {
  import opened Wrappers
  import opened PyText

  const Endpoint: string := "https://api.segment.io/v1/track"
  const RateLimit: int := 50
  const RateWindow: int := 1

  /** What the forwarder reads from an event: the `sentry.interfaces.User`
      entry (absent, or its attributes), the event id and the event time
      already rendered by `isoformat()`. */
  datatype SegmentEvent = SegmentEvent(
    user: Option<map<string, string>>,
    eventId: string,
    isoDatetime: string)

  /** A question put to the rate limiter. */
  datatype LimiterQuery = LimiterQuery(key: string, limit: int, window: int)

  datatype Properties = Properties(eventId: string)

  datatype Integration = Integration(name: string, version: string)

  /** The JSON body of a tracking call. */
  datatype Track = Track(
    userId: string,
    event: string,
    properties: Properties,
    timestamp: string,
    integration: Integration)

  /** One POST: endpoint, basic-auth pair and JSON body. */
  datatype Request = Request(url: string, auth: (string, string), body: Track)

  datatype Outcome = Outcome(queries: seq<LimiterQuery>, sent: seq<Request>)

  /** The identified user's id: `None` when the user interface is missing
      or empty, or when its `id` is missing or empty. */
  function UserId(e: SegmentEvent): (r: Option<string>)
    ensures r.Some? ==> r.value != "" && e.user.Some? && "id" in e.user.value && e.user.value["id"] == r.value
    ensures r.None? ==> e.user.None? || "id" !in e.user.value || e.user.value["id"] == ""
  {
    if e.user.None? || e.user.value == map[] then None
    else if "id" in e.user.value && e.user.value["id"] != "" then Some(e.user.value["id"])
    else None
  }

  /** The limiter key for a write key: `segment:` followed by the hex
      digest of the key. */
  function LimiterKey(writeKey: string, md5Hex: string -> string): (r: string)
    ensures |r| >= 8 && r[..8] == "segment:" && r[8..] == md5Hex(writeKey)
  {
    "segment:" + md5Hex(writeKey)
  }

  /** The tracking request sent for an identified user. */
  function TrackRequest(e: SegmentEvent, userId: string, writeKey: string, version: string): (r: Request)
    ensures r.url == Endpoint && r.auth == (writeKey, "")
    ensures r.body.userId == userId && r.body.event == "Error Captured"
    ensures r.body.properties.eventId == e.eventId
    ensures |r.body.timestamp| == |e.isoDatetime| + 1 && r.body.timestamp[..|e.isoDatetime|] == e.isoDatetime
    ensures r.body.timestamp[|r.body.timestamp| - 1] == 'Z'
    ensures r.body.integration == Integration("sentry", version)
  {
    Request(Endpoint, (writeKey, ""),
      Track(userId, "Error Captured", Properties(e.eventId), e.isoDatetime + "Z",
            Integration("sentry", version)))
  }

  /** `post_process`: an anonymous event, or a project without a write
      key, is dropped without asking the limiter; otherwise the limiter is
      asked once, for 50 requests per 1-second window under the key's
      digest, and unless it says the key is limited exactly one tracking
      request is sent. */
  function PostProcess(e: SegmentEvent, writeKey: Option<string>, version: string,
                       md5Hex: string -> string, isLimited: LimiterQuery -> bool): (r: Outcome)
    ensures |r.queries| <= 1 && |r.sent| <= 1
    ensures r.queries != [] <==> UserId(e).Some? && Truthy(writeKey)
    ensures r.queries != [] ==> r.queries[0] == LimiterQuery(LimiterKey(writeKey.value, md5Hex), 50, 1)
    ensures r.sent != [] <==> r.queries != [] && !isLimited(r.queries[0])
    ensures r.sent != [] ==> r.sent[0] == TrackRequest(e, UserId(e).value, writeKey.value, version)
  {
    match UserId(e)
    case None => Outcome([], [])
    case Some(userId) =>
      if !Truthy(writeKey) then Outcome([], [])
      else
        var q := LimiterQuery(LimiterKey(writeKey.value, md5Hex), RateLimit, RateWindow);
        if isLimited(q) then Outcome([q], [])
        else Outcome([q], [TrackRequest(e, userId, writeKey.value, version)])
  }

  /** When a guard before the limiter stops the event, neither the
      limiter's verdict nor the digest function matter: any two limiters
      and digests give the same, empty, outcome. */
  lemma GuardsPrecedeLimiter(e: SegmentEvent, writeKey: Option<string>, version: string,
                             md5a: string -> string, md5b: string -> string,
                             limitedA: LimiterQuery -> bool, limitedB: LimiterQuery -> bool)
    requires UserId(e).None? || !Truthy(writeKey)
    ensures PostProcess(e, writeKey, version, md5a, limitedA) == Outcome([], [])
    ensures PostProcess(e, writeKey, version, md5a, limitedA) == PostProcess(e, writeKey, version, md5b, limitedB)
  {
  }

  /** Whatever the limiter says, at most one request is sent, and only to
      the fixed endpoint with the write key as the basic-auth user and an
      empty password. */
  lemma AtMostOneRequest(e: SegmentEvent, writeKey: Option<string>, version: string,
                         md5Hex: string -> string, isLimited: LimiterQuery -> bool)
    ensures var r := PostProcess(e, writeKey, version, md5Hex, isLimited);
      forall i :: 0 <= i < |r.sent| ==>
        i == 0 && r.sent[i].url == Endpoint && Truthy(writeKey) && r.sent[i].auth == (writeKey.value, "")
  {
  }

  /** An identified user and a set write key under an unlimited key gets
      exactly the documented payload. */
  lemma ForwardedPayload(e: SegmentEvent, writeKey: string, version: string,
                         md5Hex: string -> string, isLimited: LimiterQuery -> bool)
    requires UserId(e).Some? && writeKey != ""
    requires !isLimited(LimiterQuery("segment:" + md5Hex(writeKey), 50, 1))
    ensures var r := PostProcess(e, Some(writeKey), version, md5Hex, isLimited);
      && r.queries == [LimiterQuery("segment:" + md5Hex(writeKey), 50, 1)]
      && r.sent == [Request(
           "https://api.segment.io/v1/track", (writeKey, ""),
           Track(UserId(e).value, "Error Captured", Properties(e.eventId), e.isoDatetime + "Z",
                 Integration("sentry", version)))]
  {
  }
}

=== FILE: slack_message.dfy ===
/** The Slack notifier's message formatting: the level colour, the
    comma-separated tag-key options, the ordered attachment fields and the
    optional top-level payload keys. Database lookups, URL building and
    JSON/form encoding are outside the model: their results arrive as
    plain strings in `Notification`. */
module SlackMessage {
  import opened Wrappers
  import opened PyText

  // ---------------------------------------------------------------------------
  // Inputs

  /** The two options that describe one routing group. */
  datatype GroupOptions = GroupOptions(tagValues: Option<string>, channel: Option<string>)

  /** The plugin's per-project options, as the option store returns them:
      string options may be unset (`None`) or empty; flags are already
      reduced to their truth value. */
  datatype SlackConfig = SlackConfig(
    webhook: Option<string>,
    username: Option<string>,
    iconUrl: Option<string>,
    channel: Option<string>,
    includeTags: bool,
    includedTagKeys: Option<string>,
    excludedTagKeys: Option<string>,
    includeRules: bool,
    sortOnTag: bool,
    sendToRootToo: bool,
    sortOnTagKey: Option<string>,
    group1: GroupOptions,
    group2: GroupOptions,
    group3: GroupOptions)

  /** A labelled tag of the event, in the event's tag order. */
  datatype Tag = Tag(key: string, value: string)

  /** A rule that triggered the notification: its absolute edit link and
      its label (`name`). */
  datatype RuleRef = RuleRef(link: string, name: string)

  /** What the notifier reads from the notification, its event, group and
      project. `culprit` is empty when the group has none; `titleLink` and
      `projectName` come from the host framework unchanged. */
  datatype Notification = Notification(
    title: string,
    culprit: string,
    projectName: string,
    titleLink: string,
    level: Option<string>,
    tags: seq<Tag>,
    rules: seq<RuleRef>)

  // ---------------------------------------------------------------------------
  // Outputs

  datatype Field = Field(title: string, value: string, short: bool)

  datatype Attachment = Attachment(
    fallback: string,
    title: string,
    titleLink: string,
    color: string,
    fields: seq<Field>)

  /** The JSON message; an absent optional key is `None`. */
  datatype Payload = Payload(
    parse: string,
    attachments: seq<Attachment>,
    username: Option<string>,
    channel: Option<string>,
    iconUrl: Option<string>)

  // ---------------------------------------------------------------------------
  // Colour

  const LevelToColor: map<string, string> := map[
    "debug" := "cfd3da",
    "info" := "2788ce",
    "warning" := "f18500",
    "error" := "f43f20",
    "fatal" := "d20f2a"
  ]

  /** A known level selects its table colour behind a `#`; any other level,
      or none, yields the literal `#error` (the word, not the error hex). */
  function ColorForEvent(level: Option<string>): (r: string)
    ensures level.Some? && level.value in LevelToColor ==> r == "#" + LevelToColor[level.value]
    ensures !(level.Some? && level.value in LevelToColor) ==> r == "#error"
  {
    "#" + (if level.Some? && level.value in LevelToColor then LevelToColor[level.value] else "error")
  }

  predicate IsHexDigit(c: char) {
    '0' <= c <= '9' || 'a' <= c <= 'f'
  }

  /** Every known level gets a `#` followed by six hex digits, and the
      fallback colour is not among them: an unknown level does not get the
      colour of the `error` level. */
  lemma ColorShape(level: Option<string>)
    ensures var r := ColorForEvent(level);
      |r| >= 1 && r[0] == '#'
      && (level.Some? && level.value in LevelToColor <==>
            (|r| == 7 && forall k :: 1 <= k < 7 ==> IsHexDigit(r[k])))
  {
    var r := ColorForEvent(level);
    if !(level.Some? && level.value in LevelToColor) {
      assert r == "#error";
      assert r[2] == 'r';
      assert !IsHexDigit(r[2]);
    } else {
      var l := level.value;
      assert l == "debug" || l == "info" || l == "warning" || l == "error" || l == "fatal";
    }
  }

  // ---------------------------------------------------------------------------
  // Tag-key options

  /** A comma-separated option as a set of stripped, lower-cased keys;
      `None` when the option is unset or empty. */
  function GetTagList(option: Option<string>): (r: Option<set<string>>)
    ensures r.None? <==> !Truthy(option)
    ensures r.Some? ==> r.value != {}
    ensures r.Some? ==> forall p :: p in Split(option.value, ',') ==> Normalise(p) in r.value
    ensures r.Some? ==> forall t :: t in r.value ==>
      exists p :: p in Split(option.value, ',') && t == Normalise(p)
  {
    if !Truthy(option) then None
    else
      var pieces := Split(option.value, ',');
      var keys := set p | p in pieces :: Normalise(p);
      assert Normalise(pieces[0]) in keys;
      Some(keys)
  }

  /** The tag list of comma-free pieces joined by commas is exactly the set
      of those pieces, each stripped and lower-cased. */
  lemma TagListOfPieces(ps: seq<string>)
    requires |ps| >= 1 && forall i :: 0 <= i < |ps| ==> ',' !in ps[i]
    requires Join(ps, ',') != ""
    ensures GetTagList(Some(Join(ps, ','))) == Some(set p | p in ps :: Normalise(p))
  {
    SplitJoin(ps, ',');
  }

  /** One comma-separated piece as a key: stripped, then lower-cased. */
  function Normalise(piece: string): string {
    Lower(Strip(piece))
  }

  /** A comma-free piece, stripped and lower-cased, is trimmed, comma-free
      and lower-case. */
  lemma NormalisedPiece(p: string)
    requires ',' !in p
    ensures var t := Normalise(p);
      Trimmed(t, IsSpace) && ',' !in t && forall k :: 0 <= k < |t| ==> !IsUpper(t[k])
  {
    var s := Strip(p);
    var t := Lower(s);
    StripCharsSpec(p, IsSpace);
    LowerKeepsTrimmed(s);
    LowerSpec(s);
    assert ',' !in s;
  }

  /** Every key of a tag list is stripped, lower-case and free of commas. */
  lemma TagListNormalised(option: Option<string>)
    requires Truthy(option)
    ensures forall t :: t in GetTagList(option).value ==>
      Trimmed(t, IsSpace) && ',' !in t && forall k :: 0 <= k < |t| ==> !IsUpper(t[k])
  {
    forall t | t in GetTagList(option).value
      ensures Trimmed(t, IsSpace) && ',' !in t && forall k :: 0 <= k < |t| ==> !IsUpper(t[k])
    {
      var p :| p in Split(option.value, ',') && t == Normalise(p);
      NormalisedPiece(p);
    }
  }

  /** The keys `included_tag_keys` / `excluded_tag_keys` denote: an unset
      option means the empty set. */
  function KeySet(option: Option<string>): set<string>
  {
    GetTagList(option).GetOr({})
  }

  // ---------------------------------------------------------------------------
  // Fields

  /** Whether a tag with this key passes the include/exclude filter:
      the included set is empty or holds the lower-cased key or its
      standardised form, and the excluded set is empty or holds neither. */
  predicate Kept(tagKey: string, std: string -> string, inc: set<string>, exc: set<string>)
  {
    var key := Lower(tagKey);
    && (inc == {} || key in inc || std(key) in inc)
    && (exc == {} || (key !in exc && std(key) !in exc))
  }

  function TagField(t: Tag): Field {
    Field(t.key, t.value, true)
  }

  /** The tag fields, skipping a tag when an include list is set and names
      neither its key nor its standardised key, or when an exclude list is
      set and names either. */
  function TagFields(tags: seq<Tag>, std: string -> string, inc: set<string>, exc: set<string>): (r: seq<Field>)
    ensures |r| <= |tags|
    ensures forall i :: 0 <= i < |tags| && Kept(tags[i].key, std, inc, exc) ==> TagField(tags[i]) in r
    ensures forall f :: f in r ==>
      exists i :: 0 <= i < |tags| && Kept(tags[i].key, std, inc, exc) && f == TagField(tags[i])
  {
    if |tags| == 0 then []
    else
      var key := Lower(tags[0].key);
      var stdKey := std(key);
      var rest := TagFields(tags[1..], std, inc, exc);
      if inc != {} && key !in inc && stdKey !in inc then rest
      else if exc != {} && (key in exc || stdKey in exc) then rest
      else [TagField(tags[0])] + rest
  }

  /** Tag fields keep the tags' order: filtering a concatenation is the
      concatenation of the filtered parts. */
  lemma {:induction false} TagFieldsInOrder(a: seq<Tag>, b: seq<Tag>, std: string -> string, inc: set<string>, exc: set<string>)
    ensures TagFields(a + b, std, inc, exc) == TagFields(a, std, inc, exc) + TagFields(b, std, inc, exc)
  {
    if |a| > 0 {
      assert (a + b)[0] == a[0];
      assert (a + b)[1..] == a[1..] + b;
      TagFieldsInOrder(a[1..], b, std, inc, exc);
    } else {
      assert a + b == b;
    }
  }

  /** One tag yields one field exactly when it passes the filter. */
  lemma TagFieldSingle(t: Tag, std: string -> string, inc: set<string>, exc: set<string>)
    ensures TagFields([t], std, inc, exc) == (if Kept(t.key, std, inc, exc) then [TagField(t)] else [])
  {
    assert [t][1..] == [];
  }

  /** A rule as a Slack link: `<link | label>`. */
  function RuleMention(r: RuleRef): string {
    "<" + r.link + " | " + r.name + ">"
  }

  function Mentions(rules: seq<RuleRef>): seq<string> {
    seq(|rules|, i requires 0 <= i < |rules| => RuleMention(rules[i]))
  }

  /** The "Triggered By" value: the rule mentions joined by `, `; empty
      exactly when there are no rules. */
  function TriggeredBy(rules: seq<RuleRef>): (r: string)
    ensures r == "" <==> |rules| == 0
  {
    var ms := Mentions(rules);
    assert |ms| > 0 ==> ms[0][0] == '<';
    JoinWith(ms, ", ")
  }

  /** One rule is mentioned as `<link | label>`. */
  lemma TriggeredBySingle(r: RuleRef)
    ensures TriggeredBy([r]) == "<" + r.link + " | " + r.name + ">"
  {
  }

  /** The mentions of two lists of rules are joined with `, `, in order. */
  lemma TriggeredByAppend(a: seq<RuleRef>, b: seq<RuleRef>)
    requires |a| > 0 && |b| > 0
    ensures TriggeredBy(a + b) == TriggeredBy(a) + ", " + TriggeredBy(b)
  {
    assert Mentions(a + b) == Mentions(a) + Mentions(b);
    JoinWithAppend(Mentions(a), Mentions(b), ", ");
  }

  predicate HasCulprit(n: Notification) {
    n.culprit != "" && n.title != n.culprit
  }

  predicate HasTrigger(c: SlackConfig, n: Notification) {
    c.includeRules && |n.rules| > 0
  }

  /** The attachment fields, in order: Culprit (only when present and
      different from the title), Project, Triggered By (only when rules are
      included and there are some), then the filtered tag fields. */
  function Fields(c: SlackConfig, n: Notification, std: string -> string): (r: seq<Field>)
    ensures var p := if HasCulprit(n) then 1 else 0;
      var q := if HasTrigger(c, n) then p + 2 else p + 1;
      && |r| >= q
      && (HasCulprit(n) ==> r[0] == Field("Culprit", n.culprit, false))
      && r[p] == Field("Project", n.projectName, true)
      && (HasTrigger(c, n) ==> r[p + 1] == Field("Triggered By", TriggeredBy(n.rules), false))
      && r[q..] == (if c.includeTags
                    then TagFields(n.tags, std, KeySet(c.includedTagKeys), KeySet(c.excludedTagKeys))
                    else [])
  {
    var culprit := if HasCulprit(n) then [Field("Culprit", n.culprit, false)] else [];
    var project := [Field("Project", n.projectName, true)];
    var triggered := if HasTrigger(c, n) then [Field("Triggered By", TriggeredBy(n.rules), false)] else [];
    var tags := if c.includeTags
      then TagFields(n.tags, std, KeySet(c.includedTagKeys), KeySet(c.excludedTagKeys))
      else [];
    var head := culprit + project + triggered;
    assert |head| == (if HasCulprit(n) then 1 else 0) + 1 + (if HasTrigger(c, n) then 1 else 0);
    assert (head + tags)[|head|..] == tags;
    assert forall k :: 0 <= k < |head| ==> (head + tags)[k] == head[k];
    head + tags
  }

  /** "Culprit" and "Triggered By" appear among the fixed (non-tag)
      fields exactly when their conditions hold, and the Project field is
      always there, once. */
  lemma FixedFields(c: SlackConfig, n: Notification, std: string -> string)
    ensures var r := Fields(c, n, std);
      var q := (if HasCulprit(n) then 1 else 0) + 1 + (if HasTrigger(c, n) then 1 else 0);
      && (exists k :: 0 <= k < q && r[k].title == "Culprit") == HasCulprit(n)
      && (exists k :: 0 <= k < q && r[k].title == "Triggered By") == HasTrigger(c, n)
      && (forall k :: 0 <= k < q && r[k].title == "Project" ==> r[k].short && k == q - 1 - (if HasTrigger(c, n) then 1 else 0))
  {
    var r := Fields(c, n, std);
    var p := if HasCulprit(n) then 1 else 0;
    assert r[p].title == "Project";
    assert "Project" != "Culprit" && "Project" != "Triggered By" && "Culprit" != "Triggered By" by {
      assert "Project"[0] != "Culprit"[0] && "Project"[0] != "Triggered By"[0];
      assert "Culprit"[0] != "Triggered By"[0];
    }
    if HasCulprit(n) {
      assert r[0].title == "Culprit";
    }
    if HasTrigger(c, n) {
      assert r[p + 1].title == "Triggered By";
    }
  }

  // ---------------------------------------------------------------------------
  // Payload

  /** A top-level key is sent only when its value is non-empty. */
  function OptionalKey(s: string): (r: Option<string>)
    ensures r.None? <==> s == ""
    ensures r.Some? ==> r.value == s
  {
    if s != "" then Some(s) else None
  }

  /** The `username` key: the stripped option, `Sentry` when unset or
      empty, and omitted when the option strips to nothing. */
  function UsernameKey(option: Option<string>): (r: Option<string>)
    ensures !Truthy(option) ==> r == Some("Sentry")
    ensures r.None? <==> Truthy(option) && Strip(option.value) == ""
    ensures Truthy(option) && Strip(option.value) != "" ==> r == Some(Strip(option.value))
    ensures r.Some? ==> r.value != "" && Trimmed(r.value, IsSpace)
  {
    TrimmedIsFixed("Sentry", IsSpace);
    StripCharsSpec(OrElse(option, "Sentry"), IsSpace);
    OptionalKey(Strip(OrElse(option, "Sentry")))
  }

  /** The `channel` key: the stripped option, omitted when that is empty. */
  function ChannelKey(option: Option<string>): (r: Option<string>)
    ensures r.None? <==> !Truthy(option) || Strip(option.value) == ""
    ensures Truthy(option) && Strip(option.value) != "" ==> r == Some(Strip(option.value))
    ensures r.Some? ==> r.value != "" && Trimmed(r.value, IsSpace)
  {
    StripCharsSpec(OrElse(option, ""), IsSpace);
    OptionalKey(Strip(OrElse(option, "")))
  }

  /** The message body shared by every post of one notification. */
  function BuildPayload(c: SlackConfig, n: Notification, std: string -> string): (r: Payload)
    ensures r.parse == "none"
    ensures |r.attachments| == 1
    ensures r.attachments[0].fallback == "[" + n.projectName + "] " + n.title
    ensures r.attachments[0].title == n.title && r.attachments[0].titleLink == n.titleLink
    ensures r.attachments[0].color == ColorForEvent(n.level)
    ensures r.attachments[0].fields == Fields(c, n, std)
    ensures r.username == UsernameKey(c.username)
    ensures r.channel == ChannelKey(c.channel)
    ensures r.iconUrl.None? <==> !Truthy(c.iconUrl)
    ensures r.iconUrl.Some? ==> r.iconUrl == c.iconUrl
  {
    Payload(
      "none",
      [Attachment("[" + n.projectName + "] " + n.title, n.title, n.titleLink,
                  ColorForEvent(n.level), Fields(c, n, std))],
      UsernameKey(c.username),
      ChannelKey(c.channel),
      if Truthy(c.iconUrl) then c.iconUrl else None)
  }
}

=== FILE: slack_routing.dfy ===
/** The Slack notifier's delivery decision: whether anything is posted,
    the optional root post, the tag the event is routed on, the three
    fixed routing groups, and one post per matching group. Each HTTP POST
    is modelled as a `Post` record in the returned sequence. */
module SlackRouting {
  import opened Wrappers
  import opened PyText
  import opened SlackMessage

  /** One routing group: its raw comma-separated trigger values and its
      stripped channel. */
  datatype Group = Group(values: seq<string>, channel: string)

  /** Where one post goes: the root post keeps the payload's own `channel`
      key; a group post names the group's channel. */
  datatype Route = Root | ToGroup(channel: string)

  /** One outbound POST: the webhook URL and the message it carries. */
  datatype Post = Post(url: string, payload: Payload)

  /** The plugin counts as configured when the webhook option is set and
      non-empty. */
  predicate IsConfigured(c: SlackConfig) {
    Truthy(c.webhook)
  }

  /** The URL posted to: the webhook with surrounding spaces (only spaces)
      removed. */
  function WebhookUrl(c: SlackConfig): string {
    StripChars(OrElse(c.webhook, ""), IsBlank)
  }

  predicate IsBlank(ch: char) {
    ch == ' '
  }

  /** The tag key routed on: the stripped option, `application_name` when
      unset or empty. */
  function SortKey(c: SlackConfig): (r: string)
    ensures !Truthy(c.sortOnTagKey) ==> r == "application_name"
    ensures Truthy(c.sortOnTagKey) ==> r == Strip(c.sortOnTagKey.value)
    ensures Trimmed(r, IsSpace)
  {
    TrimmedIsFixed("application_name", IsSpace);
    StripCharsSpec(OrElse(c.sortOnTagKey, "application_name"), IsSpace);
    Strip(OrElse(c.sortOnTagKey, "application_name"))
  }

  /** A group's trigger values are the raw pieces of the option split on
      commas (an unset option gives the single empty piece); its channel
      is the stripped option, possibly empty. */
  function ParseGroup(g: GroupOptions): (r: Group)
    ensures |r.values| >= 1
    ensures !Truthy(g.tagValues) ==> r.values == [""]
    ensures Join(r.values, ',') == OrElse(g.tagValues, "")
    ensures forall i :: 0 <= i < |r.values| ==> ',' !in r.values[i]
    ensures r.channel == (if Truthy(g.channel) then Strip(g.channel.value) else "")
    ensures Trimmed(r.channel, IsSpace)
  {
    JoinSplit(OrElse(g.tagValues, ""), ',');
    StripCharsSpec(OrElse(g.channel, ""), IsSpace);
    Group(Split(OrElse(g.tagValues, ""), ','), Strip(OrElse(g.channel, "")))
  }

  /** The three groups, in their fixed order. */
  function Groups(c: SlackConfig): (r: seq<Group>)
    ensures |r| == 3
  {
    [ParseGroup(c.group1), ParseGroup(c.group2), ParseGroup(c.group3)]
  }

  /** The value of the first tag whose key is `key`, if any. */
  function FirstTagValue(tags: seq<Tag>, key: string): (r: Option<string>)
    ensures r.None? <==> forall i :: 0 <= i < |tags| ==> tags[i].key != key
    ensures r.Some? ==> exists i :: 0 <= i < |tags| && tags[i].key == key && tags[i].value == r.value
                                    && forall j :: 0 <= j < i ==> tags[j].key != key
  {
    if |tags| == 0 then None
    else if tags[0].key == key then Some(tags[0].value)
    else
      var r := FirstTagValue(tags[1..], key);
      assert forall i :: 1 <= i < |tags| ==> tags[i] == tags[1..][i - 1];
      r
  }

  /** The channels of the groups whose trigger values contain `v`, in
      group order, one per matching group and without deduplication. */
  function MatchingChannels(groups: seq<Group>, v: string): (r: seq<string>)
    ensures |r| <= |groups|
  {
    if |groups| == 0 then []
    else
      var rest := MatchingChannels(groups[1..], v);
      if v in groups[0].values then [groups[0].channel] + rest else rest
  }

  /** Every selected channel belongs to a matching group, every matching
      group's channel is selected, and nothing is selected exactly when no
      group matches. */
  lemma {:induction false} MatchingChannelsSpec(groups: seq<Group>, v: string)
    ensures var r := MatchingChannels(groups, v);
      && (r == [] <==> forall i :: 0 <= i < |groups| ==> v !in groups[i].values)
      && (forall ch :: ch in r ==>
            exists i :: 0 <= i < |groups| && v in groups[i].values && groups[i].channel == ch)
      && (forall i :: 0 <= i < |groups| && v in groups[i].values ==> groups[i].channel in r)
  {
    if |groups| > 0 {
      MatchingChannelsSpec(groups[1..], v);
      assert forall i :: 1 <= i < |groups| ==> groups[i] == groups[1..][i - 1];
    }
  }

  /** Over the three fixed groups, the selected channels are exactly those
      of groups 1, 2 and 3 that match, in that order. */
  lemma MatchingChannelsInGroupOrder(g1: Group, g2: Group, g3: Group, v: string)
    ensures MatchingChannels([g1, g2, g3], v)
      == (if v in g1.values then [g1.channel] else [])
       + (if v in g2.values then [g2.channel] else [])
       + (if v in g3.values then [g3.channel] else [])
  {
    var m1 := if v in g1.values then [g1.channel] else [];
    var m2 := if v in g2.values then [g2.channel] else [];
    var m3 := if v in g3.values then [g3.channel] else [];
    assert MatchingChannels([g3], v) == m3 by {
      MatchingChannelsCons(g3, [], v);
      assert [g3] + [] == [g3];
    }
    assert MatchingChannels([g2, g3], v) == m2 + m3 by {
      MatchingChannelsCons(g2, [g3], v);
      assert [g2] + [g3] == [g2, g3];
    }
    assert MatchingChannels([g1, g2, g3], v) == m1 + (m2 + m3) by {
      MatchingChannelsCons(g1, [g2, g3], v);
      assert [g1] + [g2, g3] == [g1, g2, g3];
    }
  }

  lemma MatchingChannelsCons(g: Group, rest: seq<Group>, v: string)
    ensures MatchingChannels([g] + rest, v)
      == (if v in g.values then [g.channel] else []) + MatchingChannels(rest, v)
  {
    assert ([g] + rest)[1..] == rest;
  }

  /** The tag value the event is routed on, if it has the routing tag. */
  function RoutingValue(c: SlackConfig, tags: seq<Tag>): Option<string> {
    FirstTagValue(tags, SortKey(c))
  }

  /** The channels a tag-sorted notification is routed to. */
  function SelectedChannels(c: SlackConfig, tags: seq<Tag>): seq<string> {
    match RoutingValue(c, tags)
    case None => []
    case Some(v) => MatchingChannels(Groups(c), v)
  }

  /** One group route per channel, in order. */
  function GroupRoutes(chans: seq<string>): (r: seq<Route>)
    ensures |r| == |chans|
  {
    if |chans| == 0 then [] else [ToGroup(chans[0])] + GroupRoutes(chans[1..])
  }

  /** The k-th group route names the k-th channel. */
  lemma {:induction false} GroupRoutesAt(chans: seq<string>)
    ensures forall k :: 0 <= k < |chans| ==> GroupRoutes(chans)[k] == ToGroup(chans[k])
  {
    if |chans| > 0 {
      GroupRoutesAt(chans[1..]);
      forall k | 1 <= k < |chans| ensures GroupRoutes(chans)[k] == ToGroup(chans[k]) {
        assert GroupRoutes(chans)[k] == GroupRoutes(chans[1..])[k - 1];
        assert chans[k] == chans[1..][k - 1];
      }
    }
  }

  /** The routing decision: nothing when unconfigured; a single root post
      when not sorting on a tag; otherwise the optional root post first,
      then one post per selected channel. */
  function Plan(c: SlackConfig, tags: seq<Tag>): (r: seq<Route>)
    ensures !IsConfigured(c) ==> r == []
    ensures IsConfigured(c) && !c.sortOnTag ==> r == [Root]
    ensures |r| <= 4
    ensures forall i :: 0 < i < |r| ==> r[i].ToGroup?
    ensures |r| > 0 && r[0].Root? ==> IsConfigured(c) && (!c.sortOnTag || c.sendToRootToo)
  {
    if !IsConfigured(c) then []
    else if !c.sortOnTag then [Root]
    else
      var chans := SelectedChannels(c, tags);
      GroupRoutesAt(chans);
      (if c.sendToRootToo then [Root] else []) + GroupRoutes(chans)
  }

  /** The channels named by the group routes of a plan, in order. */
  function GroupChannels(routes: seq<Route>): seq<string>
  {
    if |routes| == 0 then []
    else (if routes[0].ToGroup? then [routes[0].channel] else []) + GroupChannels(routes[1..])
  }

  lemma {:induction false} GroupChannelsOfGroupRoutes(chans: seq<string>)
    ensures GroupChannels(GroupRoutes(chans)) == chans
  {
    if |chans| > 0 {
      var gs := GroupRoutes(chans);
      var tail := GroupRoutes(chans[1..]);
      assert gs == [ToGroup(chans[0])] + tail;
      assert gs[1..] == tail && gs[0] == ToGroup(chans[0]) by {
        assert ([ToGroup(chans[0])] + tail)[1..] == tail;
      }
      assert GroupChannels(gs) == [chans[0]] + GroupChannels(tail);
      GroupChannelsOfGroupRoutes(chans[1..]);
      assert chans == [chans[0]] + chans[1..];
    }
  }

  /** When sorting on a tag the root post, if asked for, comes first, and
      the group posts that follow name exactly the matching groups'
      channels, in group order, or none at all when the event lacks the
      routing tag. */
  lemma SortedPlan(c: SlackConfig, tags: seq<Tag>)
    requires IsConfigured(c) && c.sortOnTag
    ensures var r := Plan(c, tags);
      var rootCount := if c.sendToRootToo then 1 else 0;
      && |r| == rootCount + |SelectedChannels(c, tags)|
      && (c.sendToRootToo ==> r[0] == Root)
      && GroupChannels(r) == SelectedChannels(c, tags)
  {
    var chans := SelectedChannels(c, tags);
    var gs := GroupRoutes(chans);
    GroupChannelsOfGroupRoutes(chans);
    if c.sendToRootToo {
      var r := [Root] + gs;
      assert Plan(c, tags) == r;
      assert r[1..] == gs;
      assert GroupChannels(r) == [] + GroupChannels(gs);
    } else {
      assert Plan(c, tags) == [] + gs;
      assert [] + gs == gs;
    }
  }

  /** Without the routing tag on the event, only the optional root post is
      made. */
  lemma MissingTagOnlyRoot(c: SlackConfig, tags: seq<Tag>)
    requires IsConfigured(c) && c.sortOnTag
    requires forall i :: 0 <= i < |tags| ==> tags[i].key != SortKey(c)
    ensures Plan(c, tags) == (if c.sendToRootToo then [Root] else [])
  {
    assert RoutingValue(c, tags).None?;
    assert GroupRoutes([]) == [];
  }

  /** An event whose routing value matches no group gets no group post,
      only the optional root post: no fallback to the default channel. */
  lemma NoMatchNoFallback(c: SlackConfig, tags: seq<Tag>, v: string)
    requires IsConfigured(c) && c.sortOnTag
    requires RoutingValue(c, tags) == Some(v)
    requires forall i :: 0 <= i < 3 ==> v !in Groups(c)[i].values
    ensures Plan(c, tags) == (if c.sendToRootToo then [Root] else [])
  {
    MatchingChannelsSpec(Groups(c), v);
    assert SelectedChannels(c, tags) == [];
    assert GroupRoutes([]) == [];
  }

  /** Every group whose raw values contain the routing value gets a post,
      even when its channel option is unset and the channel is empty. */
  lemma MatchingGroupIsRouted(c: SlackConfig, tags: seq<Tag>, v: string, k: int)
    requires IsConfigured(c) && c.sortOnTag
    requires RoutingValue(c, tags) == Some(v)
    requires 0 <= k < 3 && v in Groups(c)[k].values
    ensures ToGroup(Groups(c)[k].channel) in Plan(c, tags)
  {
    var chans := SelectedChannels(c, tags);
    assert Groups(c)[k].channel in chans by {
      MatchingChannelsSpec(Groups(c), v);
    }
    var i :| 0 <= i < |chans| && chans[i] == Groups(c)[k].channel;
    GroupRouteAt(c, tags, i);
  }

  /** An unset group's values are the single empty string, so an event
      whose routing tag has the empty value is routed to every unset
      group. */
  lemma EmptyValueMatchesUnsetGroups(c: SlackConfig, tags: seq<Tag>, k: int)
    requires IsConfigured(c) && c.sortOnTag
    requires RoutingValue(c, tags) == Some("")
    requires 0 <= k < 3
    requires !Truthy([c.group1, c.group2, c.group3][k].tagValues)
    ensures ToGroup(Groups(c)[k].channel) in Plan(c, tags)
  {
    assert "" in Groups(c)[k].values by {
      assert Groups(c)[k] == ParseGroup([c.group1, c.group2, c.group3][k]);
    }
    MatchingGroupIsRouted(c, tags, "", k);
  }

  /** Group values are compared as written: the option `a, b` holds the
      value ` b`, which the tag value `b` does not match. */
  lemma GroupValuesAreRaw()
    ensures ParseGroup(GroupOptions(Some("a, b"), None)).values == ["a", " b"]
    ensures "b" !in ParseGroup(GroupOptions(Some("a, b"), None)).values
  {
    var parts := ["a", " b"];
    assert parts[1..] == [" b"];
    assert Join(parts, ',') == "a" + [','] + " b";
    assert "a, b" == "a" + [','] + " b";
    SplitJoin(parts, ',');
  }

  // ---------------------------------------------------------------------------
  // Deliveries

  /** The body of the post for one route: a group post carries the group's
      channel, even an empty one. */
  function Body(route: Route, p: Payload): (r: Payload)
    ensures route.ToGroup? ==> r == p.(channel := Some(route.channel))
    ensures route.Root? ==> r == p
  {
    match route
    case Root => p
    case ToGroup(ch) => p.(channel := Some(ch))
  }

  /** The posts made for a notification, as the plugin's tests expect
      them: one per route, each group post carrying its group's channel. */
  function Deliveries(c: SlackConfig, n: Notification, std: string -> string): (r: seq<Post>)
    ensures |r| == |Plan(c, n.tags)|
    ensures forall i :: 0 <= i < |r| ==>
      && r[i].url == WebhookUrl(c)
      && (Plan(c, n.tags)[i].ToGroup? ==>
            r[i].payload == BuildPayload(c, n, std).(channel := Some(Plan(c, n.tags)[i].channel)))
      && (Plan(c, n.tags)[i].Root? ==> r[i].payload == BuildPayload(c, n, std))
  {
    var plan := Plan(c, n.tags);
    var p := BuildPayload(c, n, std);
    seq(|plan|, i requires 0 <= i < |plan| => Post(WebhookUrl(c), Body(plan[i], p)))
  }

  /** Each post's body is its route's body. */
  lemma DeliveryAt(c: SlackConfig, n: Notification, std: string -> string, i: int)
    requires 0 <= i < |Plan(c, n.tags)|
    ensures Deliveries(c, n, std)[i].payload == Body(Plan(c, n.tags)[i], BuildPayload(c, n, std))
  {
  }

  lemma GroupRouteAt(c: SlackConfig, tags: seq<Tag>, k: int)
    requires IsConfigured(c) && c.sortOnTag
    requires 0 <= k < |SelectedChannels(c, tags)|
    ensures (if c.sendToRootToo then 1 else 0) + k < |Plan(c, tags)|
    ensures Plan(c, tags)[(if c.sendToRootToo then 1 else 0) + k] == ToGroup(SelectedChannels(c, tags)[k])
  {
    PlanRoutesInOrder(c, tags);
  }

  /** The posts as the plugin's code makes them: the form body is
      serialised once, before any group channel is assigned, so every post
      carries the same message as the root post. */
  function DeliveriesAsWritten(c: SlackConfig, n: Notification, std: string -> string): (r: seq<Post>)
    ensures |r| == |Plan(c, n.tags)|
    ensures forall i :: 0 <= i < |r| ==> r[i] == Post(WebhookUrl(c), BuildPayload(c, n, std))
  {
    var plan := Plan(c, n.tags);
    seq(|plan|, i requires 0 <= i < |plan| => Post(WebhookUrl(c), BuildPayload(c, n, std)))
  }

  /** With tag sorting on, the group posts follow the optional root post
      and carry the selected channels, one each, in order. */
  lemma GroupPostsCarrySelectedChannels(c: SlackConfig, n: Notification, std: string -> string)
    requires IsConfigured(c) && c.sortOnTag
    ensures var r := Deliveries(c, n, std);
      var chans := SelectedChannels(c, n.tags);
      var rootCount := if c.sendToRootToo then 1 else 0;
      && |r| == rootCount + |chans|
      && (c.sendToRootToo ==> r[0].payload == BuildPayload(c, n, std))
      && forall k :: 0 <= k < |chans| ==> r[rootCount + k].payload.channel == Some(chans[k])
  {
    RootPostFirst(c, n, std);
    GroupPostsInOrder(c, n, std);
  }

  lemma RootPostFirst(c: SlackConfig, n: Notification, std: string -> string)
    requires IsConfigured(c) && c.sortOnTag
    ensures |Deliveries(c, n, std)| == (if c.sendToRootToo then 1 else 0) + |SelectedChannels(c, n.tags)|
    ensures c.sendToRootToo ==> Deliveries(c, n, std)[0].payload == BuildPayload(c, n, std)
  {
    PlanHead(c, n.tags);
    if c.sendToRootToo {
      DeliveryAt(c, n, std, 0);
    }
  }

  lemma GroupPostsInOrder(c: SlackConfig, n: Notification, std: string -> string)
    requires IsConfigured(c) && c.sortOnTag
    ensures var r := Deliveries(c, n, std);
      var chans := SelectedChannels(c, n.tags);
      var rootCount := if c.sendToRootToo then 1 else 0;
      forall k :: 0 <= k < |chans| ==>
        rootCount + k < |r| && r[rootCount + k].payload.channel == Some(chans[k])
  {
    var chans := SelectedChannels(c, n.tags);
    forall k | 0 <= k < |chans|
      ensures var i := (if c.sendToRootToo then 1 else 0) + k;
        i < |Deliveries(c, n, std)| && Deliveries(c, n, std)[i].payload.channel == Some(chans[k])
    {
      GroupPostAt(c, n, std, k);
    }
  }

  lemma GroupPostAt(c: SlackConfig, n: Notification, std: string -> string, k: int)
    requires IsConfigured(c) && c.sortOnTag
    requires 0 <= k < |SelectedChannels(c, n.tags)|
    ensures var i := (if c.sendToRootToo then 1 else 0) + k;
      i < |Deliveries(c, n, std)|
      && Deliveries(c, n, std)[i].payload.channel == Some(SelectedChannels(c, n.tags)[k])
  {
    GroupRouteAt(c, n.tags, k);
    DeliveryAt(c, n, std, (if c.sendToRootToo then 1 else 0) + k);
  }

  /** A tag-sorted plan has one route per selected channel, plus the root
      route first when it is wanted. */
  lemma PlanHead(c: SlackConfig, tags: seq<Tag>)
    requires IsConfigured(c) && c.sortOnTag
    ensures var plan := Plan(c, tags);
      && |plan| == (if c.sendToRootToo then 1 else 0) + |SelectedChannels(c, tags)|
      && (c.sendToRootToo ==> plan[0] == Root)
  {
  }

  /** A tag-sorted plan is the optional root route followed by one group
      route per selected channel. */
  lemma PlanRoutesInOrder(c: SlackConfig, tags: seq<Tag>)
    requires IsConfigured(c) && c.sortOnTag
    ensures var chans := SelectedChannels(c, tags);
      var rootCount := if c.sendToRootToo then 1 else 0;
      var plan := Plan(c, tags);
      && |plan| == rootCount + |chans|
      && (c.sendToRootToo ==> plan[0] == Root)
      && forall k :: 0 <= k < |chans| ==> plan[rootCount + k] == ToGroup(chans[k])
  {
    var chans := SelectedChannels(c, tags);
    var root := if c.sendToRootToo then [Root] else [];
    assert Plan(c, tags) == root + GroupRoutes(chans);
    RoutesAfterRoot(root, chans);
  }

  lemma RoutesAfterRoot(root: seq<Route>, chans: seq<string>)
    ensures var r := root + GroupRoutes(chans);
      forall k :: 0 <= k < |chans| ==> r[|root| + k] == ToGroup(chans[k])
  {
    GroupRoutesAt(chans);
  }

  /** Counting posts: none without a webhook, exactly one when not sorting
      on a tag, and at most four (root plus three groups) otherwise. */
  lemma PostCounts(c: SlackConfig, n: Notification, std: string -> string)
    ensures !IsConfigured(c) ==> Deliveries(c, n, std) == []
    ensures IsConfigured(c) && !c.sortOnTag ==>
      |Deliveries(c, n, std)| == 1 && Deliveries(c, n, std)[0].payload == BuildPayload(c, n, std)
    ensures |Deliveries(c, n, std)| <= 4
  {
  }

  /** The discrepancy between the code and its tests: in the tested
      scenario the code's second post lacks the channel `#test_channel2`
      that the test expects it to carry. */
  lemma AsWrittenDropsGroupChannel(std: string -> string)
    ensures |DeliveriesAsWritten(SortingConfig, SortingNotification, std)| == 2
    ensures DeliveriesAsWritten(SortingConfig, SortingNotification, std)[1].payload.channel == None
    ensures Deliveries(SortingConfig, SortingNotification, std)[1].payload.channel == Some("#test_channel2")
  {
    SortingScenarioPlan();
  }

  // ---------------------------------------------------------------------------
  // The plugin's own test scenarios

  const NoGroup := GroupOptions(None, None)

  /** The tests' rule `my rule`; its edit link comes from URL building and
      its value does not matter here. */
  const MyRule := RuleRef("rule-edit-link", "my rule")

  /** `test_with_sorting`: routed on `test_tag_key`, groups `a,b,c`,
      `d,e,f` (no channel) and `b`. */
  const SortingConfig := SlackConfig(
    Some("http://example.com/slack"), None, None, None, false, None, None, false,
    true, false, Some("test_tag_key"),
    GroupOptions(Some("a,b,c"), Some("#test_channel")),
    GroupOptions(Some("d,e,f"), None),
    GroupOptions(Some("b"), Some("#test_channel2")))

  const SortingNotification := Notification(
    "Hello world", "foo.bar", "foo Bar", "http://example.com/baz/bar/issues/1/",
    None, [Tag("test_tag_key", "b")], [MyRule])

  /** Tag `b` matches groups 1 and 3, so two group posts follow, to
      `#test_channel` then `#test_channel2`. */
  lemma SortingScenarioPlan()
    ensures Plan(SortingConfig, SortingNotification.tags)
      == [ToGroup("#test_channel"), ToGroup("#test_channel2")]
  {
    var chans := ["#test_channel", "#test_channel2"];
    assert Plan(SortingConfig, SortingNotification.tags) == [] + GroupRoutes(chans) by {
      SortingSelected();
    }
    assert GroupRoutes(chans) == [ToGroup("#test_channel"), ToGroup("#test_channel2")] by {
      GroupRoutesAt(chans);
    }
  }

  lemma SortingSelected()
    ensures SelectedChannels(SortingConfig, SortingNotification.tags) == ["#test_channel", "#test_channel2"]
  {
    SortingRoutingValue();
    SortingGroups();
    SortingMatches();
  }

  /** Of the test's three groups, the value `b` matches the first and the
      third. */
  lemma SortingMatches()
    ensures MatchingChannels([
      Group(["a", "b", "c"], "#test_channel"),
      Group(["d", "e", "f"], ""),
      Group(["b"], "#test_channel2")], "b") == ["#test_channel", "#test_channel2"]
  {
    var g1 := Group(["a", "b", "c"], "#test_channel");
    var g2 := Group(["d", "e", "f"], "");
    var g3 := Group(["b"], "#test_channel2");
    MatchingChannelsInGroupOrder(g1, g2, g3, "b");
    assert "b" in g1.values by {
      assert g1.values[1] == "b";
    }
    assert "b" !in g2.values;
    assert "b" in g3.values by {
      assert g3.values[0] == "b";
    }
  }

  lemma SortingRoutingValue()
    ensures RoutingValue(SortingConfig, SortingNotification.tags) == Some("b")
  {
    TrimmedIsFixed("test_tag_key", IsSpace);
    assert SortKey(SortingConfig) == "test_tag_key";
  }

  lemma SortingGroups()
    ensures Groups(SortingConfig) == [
      Group(["a", "b", "c"], "#test_channel"),
      Group(["d", "e", "f"], ""),
      Group(["b"], "#test_channel2")]
  {
    var c := SortingConfig;
    assert Groups(c) == [ParseGroup(c.group1), ParseGroup(c.group2), ParseGroup(c.group3)];
    assert ParseGroup(c.group1) == Group(["a", "b", "c"], "#test_channel") by {
      SortingGroup1();
    }
    assert ParseGroup(c.group2) == Group(["d", "e", "f"], "") by {
      SortingGroup2();
    }
    assert ParseGroup(c.group3) == Group(["b"], "#test_channel2") by {
      SortingGroup3();
    }
  }

  lemma SortingGroup1()
    ensures ParseGroup(SortingConfig.group1) == Group(["a", "b", "c"], "#test_channel")
  {
    assert "a,b,c" == "a" + [','] + "b" + [','] + "c";
    ParseThreeValues("a,b,c", "a", "b", "c", "#test_channel");
  }

  lemma SortingGroup2()
    ensures ParseGroup(SortingConfig.group2) == Group(["d", "e", "f"], "")
  {
    assert "d,e,f" == "d" + [','] + "e" + [','] + "f";
    ParseThreeValues("d,e,f", "d", "e", "f", "");
  }

  lemma SortingGroup3()
    ensures ParseGroup(SortingConfig.group3) == Group(["b"], "#test_channel2")
  {
    assert Trimmed("#test_channel2", IsSpace);
    ParseOneValue("b", "#test_channel2");
  }

  lemma ParseThreeValues(s: string, a: string, b: string, c: string, ch: string)
    requires s == a + [','] + b + [','] + c
    requires ',' !in a && ',' !in b && ',' !in c && s != ""
    requires Trimmed(ch, IsSpace)
    ensures ParseGroup(GroupOptions(Some(s), if ch == "" then None else Some(ch))) == Group([a, b, c], ch)
  {
    SplitThree(a, b, c, ',');
    TrimmedIsFixed(ch, IsSpace);
  }

  lemma ParseOneValue(s: string, ch: string)
    requires ',' !in s && s != ""
    requires Trimmed(ch, IsSpace) && ch != ""
    ensures ParseGroup(GroupOptions(Some(s), Some(ch))) == Group([s], ch)
  {
    SplitPrefix(s, "", ',');
    assert s + "" == s;
    TrimmedIsFixed(ch, IsSpace);
  }

  /** Splitting three separator-free pieces joined by the separator. */
  lemma SplitThree(a: string, b: string, c: string, sep: char)
    requires sep !in a && sep !in b && sep !in c
    ensures Split(a + [sep] + b + [sep] + c, sep) == [a, b, c]
  {
    JoinThree(a, b, c, sep);
    SplitJoin([a, b, c], sep);
  }

  lemma JoinThree(a: string, b: string, c: string, sep: char)
    ensures Join([a, b, c], sep) == a + [sep] + b + [sep] + c
  {
    var parts := [a, b, c];
    assert parts[1..] == [b, c];
    assert parts[1..][1..] == [c];
    assert Join([c], sep) == c;
    assert Join([b, c], sep) == b + [sep] + c;
    assert Join(parts, sep) == a + [sep] + (b + [sep] + c);
  }

  /** In `test_with_sorting` both posts go to the webhook with the same
      attachment, coloured `#error` (the event has no level), with the
      Culprit and Project fields only, to `#test_channel` and then
      `#test_channel2`, with username `Sentry`. */
  lemma SortingScenarioDeliveries(std: string -> string)
    ensures var r := Deliveries(SortingConfig, SortingNotification, std);
      && |r| == 2
      && r[0].payload == SortingPayload("#test_channel")
      && r[1].payload == SortingPayload("#test_channel2")
  {
    var r := Deliveries(SortingConfig, SortingNotification, std);
    var p := BuildPayload(SortingConfig, SortingNotification, std);
    assert p == SortingPayload("#test_channel").(channel := None) by {
      SortingBasePayload(std);
    }
    assert |r| == 2
      && r[0].payload == p.(channel := Some("#test_channel"))
      && r[1].payload == p.(channel := Some("#test_channel2")) by {
      SortingScenarioPlan();
    }
  }

  /** The payload `test_with_sorting` expects on the post to `channel`. */
  function SortingPayload(channel: string): Payload {
    Payload("none",
      [Attachment("[foo Bar] Hello world", "Hello world", "http://example.com/baz/bar/issues/1/",
                  "#error", [Field("Culprit", "foo.bar", false), Field("Project", "foo Bar", true)])],
      Some("Sentry"), Some(channel), None)
  }

  /** The base payload of the sorting scenario: the expected one, with no
      channel of its own. */
  lemma SortingBasePayload(std: string -> string)
    ensures BuildPayload(SortingConfig, SortingNotification, std)
      == SortingPayload("#test_channel").(channel := None)
  {
    assert Fields(SortingConfig, SortingNotification, std)
      == [Field("Culprit", "foo.bar", false), Field("Project", "foo Bar", true)] by {
      PlainFields(SortingConfig, SortingNotification, std);
    }
    assert UsernameKey(None) == Some("Sentry");
    assert ChannelKey(None) == None;
    assert ColorForEvent(None) == "#error";
    assert "[" + "foo Bar" + "] " + "Hello world" == "[foo Bar] Hello world";
  }

  /** Without rules or tags, a notification whose culprit differs from its
      title gets exactly the Culprit and Project fields. */
  lemma PlainFields(c: SlackConfig, n: Notification, std: string -> string)
    requires !c.includeTags && !c.includeRules && HasCulprit(n)
    ensures Fields(c, n, std) == [Field("Culprit", n.culprit, false), Field("Project", n.projectName, true)]
  {
  }

  /** `test_simple_notification`: only the webhook is set. */
  const SimpleConfig := SlackConfig(
    Some("http://example.com/slack"), None, None, None, false, None, None, false,
    false, false, None, NoGroup, NoGroup, NoGroup)

  const SimpleNotification := Notification(
    "Hello world", "foo.bar", "foo Bar", "http://example.com/baz/bar/issues/1/",
    Some("warning"), [Tag("level", "warning")], [MyRule])

  /** One post, to the webhook, carrying the scenario's payload. */
  lemma SimpleScenarioDeliveries(std: string -> string)
    ensures var r := Deliveries(SimpleConfig, SimpleNotification, std);
      && |r| == 1
      && r[0].url == "http://example.com/slack"
      && r[0].payload == BuildPayload(SimpleConfig, SimpleNotification, std)
  {
    assert WebhookUrl(SimpleConfig) == "http://example.com/slack" by {
      TrimmedIsFixed("http://example.com/slack", IsBlank);
    }
    assert Plan(SimpleConfig, SimpleNotification.tags) == [Root];
  }

  /** The payload has no channel and no icon, username `Sentry`, colour
      `#f18500`, and the Culprit and Project fields. */
  lemma SimpleScenarioPayload(std: string -> string)
    ensures var p := BuildPayload(SimpleConfig, SimpleNotification, std);
      && p.channel == None
      && p.iconUrl == None
      && p.username == Some("Sentry")
      && p.attachments[0].color == "#f18500"
      && p.attachments[0].fallback == "[foo Bar] Hello world"
      && p.attachments[0].fields
         == [Field("Culprit", "foo.bar", false), Field("Project", "foo Bar", true)]
  {
    PlainFields(SimpleConfig, SimpleNotification, std);
    assert UsernameKey(None) == Some("Sentry");
    assert ColorForEvent(Some("warning")) == "#f18500";
  }
}

=== FILE: wrappers.dfy ===
/** Optional values: Python's `None` versus a present value. */
module Wrappers {

  datatype Option<+T> = None | Some(value: T) {

    /** The encapsulated value, or `default` when absent. */
    function GetOr(default: T): T {
      match this
      case Some(v) => v
      case None => default
    }
  }
}
